=== FILE: README.md ===
# Canvas and card board — a Dafny model

Nikahub is a sticky-note board. A NestJS backend stores **canvases** (named
boards) and **cards** (positioned, sized markdown notes). Each card belongs
to one canvas through its `canvasId` foreign key. A React frontend renders
the cards of the selected canvas. The user pans the canvas, double-clicks to
create a card, drags a card to move it, resizes it from the corner, and
edits its text.

This project models two things:

- **The backend service layer.** It is a small state machine over two keyed
  tables (`CanvasService`, `CardService`). Each table has five operations,
  and each operation either succeeds or fails with one error kind. Two rules
  carry the real content:
  - the **delete guard**: a canvas that still has cards cannot be removed;
  - the **foreign-key check**: a card can only be created on a canvas that
    exists.

  Card update is a merge-patch: fields the patch leaves out keep their
  values.
- **The frontend state transitions.** These are the pure state updates
  inside the board component (`Canvas.jsx`) and the card component
  (`SingleCard.jsx`), with rendering stripped away.

Files (one module each):

| file | module | models |
|---|---|---|
| outcomes.dfy | `Outcomes` | `Option`, the error kinds (404 / 400), `Result` |
| records.dfy | `Records` | the `Canvas` and `Card` records, create inputs, update patches, and a per-field view used to state merge-patch once |
| repository.dfy | `Repository` | the store: `map<nat, Canvas>` and `map<nat, Card>` plus one id sequence per table; the `Valid` and `RefIntact` invariants; the derived canvas-to-cards relation |
| canvas_service.dfy | `CanvasService` | `findAll`, `findOne`, `create`, `update`, `remove` |
| card_service.dfy | `CardService` | `findAll`, `findOne`, `create`, `update`, `remove` |
| lifecycle.dfy | `Lifecycle` | request sequences; facts that hold across several calls |
| geometry.dfy | `Geometry` | whole-pixel points |
| canvas_board.dfy | `CanvasBoard` | `Canvas.jsx`: first-canvas selection, panning, double-click create, list update and delete |
| card_widget.dfy | `CardWidget` | `SingleCard.jsx`: press, drag, resize, release, click, blur |

Modelling choices:

- Every service operation is a pure function from a store to a new store
  and a `Result`.
- Ids come from per-table sequences starting at 1, like the ORM's generated
  primary keys. `Valid` says that every row is stored under its own id and
  that every id in use is below its table's sequence.
- A canvas's `cards` relation is not stored. It is derived by filtering the
  card table on `canvasId`.
- `CanvasService.Update` follows the code in two steps:
  1. the repository update, which does nothing when the row is absent;
  2. a re-read, which reports NotFound when the row is absent.
- `CardService.Update` follows `preload`: load the row, then merge the
  patch into it.
- `CardService.Remove` follows the affected-row count.
- The frontend makes no network calls. Each handler takes the server's
  reply as a parameter: `None` or `false` stands for a failed request, and
  the board then stays as it was, as the handlers' `catch` blocks leave
  it. The exception is a failed canvas load: it sets `error`, and the
  component then shows only the error message in place of the board.
- `selectedCanvas` is checked with JavaScript truthiness, so id `0` counts
  as "no canvas". `CanvasBoard.StoredIdsAreTruthy` shows that no stored id
  is 0.

Design questions the code settles, and the model with it:

- Both integrity failures are 400 Bad Request. The code raises the same
  exception class for the delete guard and for a card naming a missing
  canvas.
- The card service's update does not check a patched `canvasId`.
  `Lifecycle.UpdateMayOrphanCard` shows that, at the level of the service
  code, such an update succeeds and breaks referential integrity. The
  database's own foreign key stops it in the deployed system (see
  "## Left out"). `Lifecycle.RunPreservesRefIntact` shows that integrity
  holds across every run of calls in which each card update names a canvas
  that exists at that moment, or names none.
- Card `findAll` takes no `canvasId` filter.

## Model

| member | source | states |
|---|---|---|
| Records.CardsEqualByFields | backend/canvas/src/firstentity/entities/card.entity.ts:8-69 | the per-field view covers every column of the card entity: two cards agreeing on the id and on every field are equal |
| Records.NewCard | backend/canvas/src/firstentity/card.service.ts:47-48 | the persisted card carries the assigned id and every column equals the request's; stripping the id gives back the request |
| Records.MergeCard | backend/canvas/src/firstentity/card.service.ts:52-55 | preload merge: the id is kept; each column takes the patch's value when the patch supplies one and keeps the stored value otherwise |
| Records.MergeCanvas | backend/canvas/src/firstentity/canvas.service.ts:45 | canvas update: a supplied name replaces the stored one; without one the canvas is unchanged; the id never changes |
| Records.MergeEmptyPatch | backend/canvas/src/firstentity/card.service.ts:52-55 | a patch with no fields leaves the card exactly as it was |
| Records.MergeIdempotent | backend/canvas/src/firstentity/card.service.ts:52-55 | applying the same patch twice equals applying it once |
| Records.MergeCompose | backend/canvas/src/firstentity/card.service.ts:52-55 | two successive merges equal one merge of the composed patch, the later patch winning field by field |
| Repository.CardsOfNonEmpty | backend/canvas/src/firstentity/canvas.service.ts:58 | a canvas's loaded `cards` list is non-empty exactly when some stored card's foreign key names it |
| Repository.InCardsOf | backend/canvas/src/firstentity/canvas.service.ts:29-32 | a card is in a canvas's `cards` relation exactly when it is stored and its `canvasId` names that canvas |
| CanvasService.FindAll | backend/canvas/src/firstentity/canvas.service.ts:24-26 | every stored canvas appears with its cards, nothing else appears, and on a well-formed store each canvas appears once |
| CanvasService.FindOne | backend/canvas/src/firstentity/canvas.service.ts:28-37 | NotFound exactly when no canvas has the id; otherwise that canvas with exactly the cards that point at it |
| CanvasService.Create | backend/canvas/src/firstentity/canvas.service.ts:39-42 | adds one canvas under the next id with the requested name; the id was unused, the cards are untouched, and the new canvas has no cards |
| CanvasService.Update | backend/canvas/src/firstentity/canvas.service.ts:44-47 | absent id: NotFound and the store is unchanged; present id: only that canvas's name changes (to the patched one if given) and the refreshed canvas is returned with its cards |
| CanvasService.Remove | backend/canvas/src/firstentity/canvas.service.ts:49-65 | absent id: NotFound (404) and nothing changes; a canvas with cards: Bad Request (400) with the fixed message "Cannot delete canvas with associated cards" and nothing changes; otherwise exactly that canvas is deleted and the card table is untouched; it succeeds exactly in the last case |
| CardService.FindAll | backend/canvas/src/firstentity/card.service.ts:23-25 | every stored card appears with its canvas, nothing else appears, and on a well-formed store each card appears once |
| CardService.FindOne | backend/canvas/src/firstentity/card.service.ts:27-34 | NotFound exactly when no card has the id; otherwise that card, with its canvas exactly when the foreign key resolves |
| CardService.Create | backend/canvas/src/firstentity/card.service.ts:36-49 | a missing canvas gives Bad Request (400) with the message "Canvas with ID n does not exist" and the store is unchanged; otherwise one card is added under a fresh id whose columns equal the request's, and nothing else changes |
| CardService.Update | backend/canvas/src/firstentity/card.service.ts:51-60 | absent id: NotFound and the store is unchanged; present id: the card keeps its id, each supplied field overwrites and the others keep their values, and only that row changes; referential integrity survives when the patch names no canvas or an existing one |
| CardService.Remove | backend/canvas/src/firstentity/card.service.ts:62-67 | NotFound exactly when no row was deleted, with the store unchanged; otherwise exactly that card is removed and canvases are unaffected |
| Lifecycle.Apply | backend/canvas/src/firstentity/entities/card.entity.ts:10-11 | every call keeps the store well formed, never moves an id sequence backwards, and never brings back a deleted id |
| Lifecycle.RunPreservesValid | backend/canvas/src/firstentity/entities/canvas.entity.ts:9-10 | any sequence of calls keeps rows under their own ids and below the sequences |
| Lifecycle.IdsNeverReused | backend/canvas/src/firstentity/entities/canvas.entity.ts:9-10 | an id handed out and since deleted is absent after any later sequence of calls, for canvases and for cards |
| Lifecycle.ApplyKeepsRef | backend/canvas/src/firstentity/card.service.ts:37-45 | one call keeps every card on an existing canvas unless it is a card update naming a canvas missing at that moment |
| Lifecycle.RunPreservesRefIntact | backend/canvas/src/firstentity/card.service.ts:37-45 | the creation check and the delete guard together keep every card on an existing canvas across any run in which each card update names an existing canvas or none |
| Lifecycle.UpdateMayOrphanCard | backend/canvas/src/firstentity/card.service.ts:51-60 | the service code re-points a card at a canvas that does not exist without complaint, breaking referential integrity |
| Lifecycle.RemoveCardsEffect | backend/canvas/src/firstentity/card.service.ts:62-67 | a run of card removals deletes exactly the named rows that exist and changes nothing else |
| Lifecycle.ClearCardsThenRemoveCanvas | backend/canvas/e2e/card.e2e-spec.ts:230-250 | after every card of a canvas is removed, removing the canvas succeeds, the cards are untouched, and a later lookup is NotFound |
| Lifecycle.GuardKeepsCanvasAndCards | backend/canvas/e2e/canvas.e2e-spec.ts:133-166 | while a card points at a canvas, removing the canvas fails with the guard's error and the canvas and card remain readable |
| Lifecycle.CanvasCreateThenFind | backend/canvas/src/firstentity/canvas.service.ts:39-42 | reading a just-created canvas returns it with the requested name and no cards |
| Lifecycle.CardCreateThenFind | backend/canvas/src/firstentity/card.service.ts:47-48 | reading a just-created card returns exactly the request's columns, attached to the named canvas |
| CanvasBoard.StoredIdsAreTruthy | frontend/src/components/Canvas/Canvas.jsx:65 | every id a well-formed store holds passes the selection's truthiness test |
| CanvasBoard.LoadCanvases | frontend/src/components/Canvas/Canvas.jsx:30-43 | on success the list is stored and the first canvas is selected when there is one, the old selection kept otherwise; on failure only the error is set |
| CanvasBoard.LoadedFirstCanvasReceivesNewCards | frontend/src/components/Canvas/Canvas.jsx:36-38 | after a load whose first canvas the store holds, the next double-click sends a create request, and it targets that canvas |
| CanvasBoard.MouseDown | frontend/src/components/Canvas/Canvas.jsx:97-101 | another button changes nothing; button 0 raises the pan flag, records the start and changes nothing else; after it, a move to any point shifts the offset by that point's displacement from the press |
| CanvasBoard.MouseMove | frontend/src/components/Canvas/Canvas.jsx:103-108 | without a pan nothing changes; with one only the offset changes, to the pointer less the recorded start |
| CanvasBoard.MouseUp | frontend/src/components/Canvas/Canvas.jsx:110-112 | the pan ends and everything else, the offset included, stays |
| CanvasBoard.PanTracksLastPointer | frontend/src/components/Canvas/Canvas.jsx:103-108 | during a pan only the last pointer position matters, whatever the path |
| CanvasBoard.PanMovesByPointerDelta | frontend/src/components/Canvas/Canvas.jsx:97-108 | a left-button pan moves the canvas by the pointer's total displacement since the press and leaves the cards alone |
| CanvasBoard.MovesWithoutPanAreInert | frontend/src/components/Canvas/Canvas.jsx:104 | pointer moves without a pan change nothing |
| CanvasBoard.NewCardDraft | frontend/src/components/Canvas/Canvas.jsx:65-81 | a create request exists exactly when a canvas is selected; it sits at the pointer less the box corner plus the offset, titled "New Card", 200 by 150, on the selected canvas |
| CanvasBoard.DoubleClick | frontend/src/components/Canvas/Canvas.jsx:62-94 | without a selection or a reply the board is unchanged; otherwise only the list changes: the created card is appended after the earlier cards, which keep their order |
| CanvasBoard.DoubleClickAgainstService | frontend/src/components/Canvas/Canvas.jsx:62-94 | against the card service, a double-click on an existing canvas creates a 200 by 150 card stored at the pointer less the canvas area's corner plus the pan offset, appended to the list; on a missing canvas both the store and the board are unchanged |
| CanvasBoard.FindById | frontend/src/components/Canvas/Canvas.jsx:117-118 | finds the first card with the id, and finds none exactly when no card has it |
| CanvasBoard.ReplaceById | frontend/src/components/Canvas/Canvas.jsx:130-132 | same length; each card with the id becomes the replacement and each other card is kept in place |
| CanvasBoard.Without | frontend/src/components/Canvas/Canvas.jsx:144 | the result holds exactly the cards whose id differs, and is no longer than the input |
| CanvasBoard.WithoutConcat | frontend/src/components/Canvas/Canvas.jsx:144 | filtering distributes over concatenation, so the kept cards stay in their order |
| CanvasBoard.WithoutAbsent | frontend/src/components/Canvas/Canvas.jsx:144 | filtering an id that no card has returns the list unchanged |
| CanvasBoard.UpdateCard | frontend/src/components/Canvas/Canvas.jsx:114-136 | an unknown id or a failed request is a no-op; otherwise every card with the id becomes the first match merged with the updates, the other cards, ids, length and order stay, and nothing else on the board changes |
| CanvasBoard.DeleteCard | frontend/src/components/Canvas/Canvas.jsx:138-148 | after a successful request the list is the filter that drops exactly the cards with the id, so the rest keep their order (`WithoutConcat`); an absent id or a failed request leaves the board unchanged |
| CardWidget.MouseDown | frontend/src/components/Card/SingleCard.jsx:11-16 | the action's flag goes up, the other flag is kept, and the pointer becomes the reference point |
| CardWidget.MouseMove | frontend/src/components/Card/SingleCard.jsx:18-34 | idle: nothing sent or changed; dragging: the merged card moves by the pointer delta; resizing: the merged size is the clamped sum; a sent size is never below 100 and no move touches text or owner |
| CardWidget.MouseUp | frontend/src/components/Card/SingleCard.jsx:36-39 | both the dragging and resizing flags are cleared |
| CardWidget.Click | frontend/src/components/Card/SingleCard.jsx:41-45 | edit mode turns on and nothing else changes |
| CardWidget.Blur | frontend/src/components/Card/SingleCard.jsx:47-50 | edit mode ends and one update is sent touching only `content`, so after merging only the text has changed |
| CardWidget.DragTracksPointer | frontend/src/components/Card/SingleCard.jsx:19-24 | when every update is answered before the next move, over a whole drag the card moves by the pointer's total displacement from the reference point, whatever the path, and the reference becomes the last pointer |
| CardWidget.DragGesture | frontend/src/components/Card/SingleCard.jsx:11-24 | press on the body then move, every update answered before the next move: the card is displaced by the pointer's travel since the press and nothing else changes |
| CardWidget.ResizeKeepsMinimum | frontend/src/components/Card/SingleCard.jsx:25-33 | after any resize moves the card is at least 100 by 100 and only its width and height have changed |
| CardWidget.IdleMovesAreInert | frontend/src/components/Card/SingleCard.jsx:18-34 | moves with neither gesture in progress send nothing and change nothing |
| CardWidget.ReleasedMovesAreInert | frontend/src/components/Card/SingleCard.jsx:36-39 | after release, further moves are inert |
| CardWidget.DragMoveThroughBoard | frontend/src/components/Card/SingleCard.jsx:22 | a drag move's update, sent through the board's `updateCard`, lands on that card's position in the list and leaves the other cards alone |
| CardWidget.LandRepliesLastWins | frontend/src/components/Canvas/Canvas.jsx:114-132 | when several updates to one card are answered in order, each writes the card captured at render time merged with its own updates, so only the last answer's updates survive |
| CardWidget.InFlightPatches | frontend/src/components/Card/SingleCard.jsx:18-33 | drag or resize moves that outrun the answers each send the same rendered card moved or grown by the pointer's step since the previous move, while the reference point follows the pointer |
| CardWidget.StaleDragMovesByLastStep | frontend/src/components/Card/SingleCard.jsx:18-24 | as written: when two or more drag moves outrun the answers, the card ends up moved only by the pointer's last step |
| CardWidget.StaleSecondMove | frontend/src/components/Card/SingleCard.jsx:18-24 | press at the origin and move right by a step twice: answered promptly the card moves by two steps, in flight by one |
| CardWidget.StaleResizeByLastStep | frontend/src/components/Card/SingleCard.jsx:25-33 | as written: when two or more resize moves outrun the answers, the card grows only by the pointer's last step, clamped at 100; the 100 minimum still holds |
| CardWidget.StaleSecondShrink | frontend/src/components/Card/SingleCard.jsx:25-33 | press the handle at the origin of a card with room to shrink and move up and left by a non-negative step twice, staying on the card: answered promptly the card shrinks by two steps in each dimension, in flight by one |
| CardWidget.AnchoredPatch | frontend/src/components/Card/SingleCard.jsx:19-23 | corrected drag update: it sets exactly the two position columns, to the position at the press plus the pointer's travel, whatever card it is merged into |
| CardWidget.DeliverSameColumnsLastWins | frontend/src/components/Canvas/Canvas.jsx:121-132 | patches that all set the same columns, merged one after another, leave only the last one's values |
| CardWidget.AnchoredDragTracksPointer | frontend/src/components/Card/SingleCard.jsx:11-24 | corrected drag handler: the card ends displaced by exactly the pointer's travel since the press, both when answers are prompt and when all moves outrun them |
| CardWidget.AnchoredResizePatch | frontend/src/components/Card/SingleCard.jsx:25-31 | corrected resize update: it sets exactly width and height, to the size at the press plus the pointer's travel, clamped at 100, whatever card it is merged into |
| CardWidget.AnchoredResizeTracksPointer | frontend/src/components/Card/SingleCard.jsx:11-33 | corrected resize handler: the card ends grown by exactly the pointer's travel since the press, clamped at 100, both when answers are prompt and when all moves outrun them |

## Findings

| source | as written | input that shows it | evidently intended | confidence | as-written member | corrected member |
|---|---|---|---|---|---|---|
| frontend/src/components/Card/SingleCard.jsx:18-24 | each drag move sends the rendered card's position plus the pointer's step since the previous move. The reference point advances at once, but the card is only re-rendered after the board's update request is answered | press at (0, 0), then move to (10, 0) and (20, 0) before the first answer: both requests carry the card moved by 10, so the card ends 10 to the right, not 20 | the card ends at its position at the press plus the pointer's total travel, however the answers are timed | medium, not executed | CardWidget.StaleDragMovesByLastStep | CardWidget.AnchoredDragTracksPointer |
| frontend/src/components/Card/SingleCard.jsx:25-33 | each resize move sends the rendered card's size plus the pointer's step since the previous move, clamped at 100. The reference point advances at once, but the card is only re-rendered after the board's update request is answered | a 200 by 150 card: press the handle at (0, 0), then move to (−10, −10) and (−20, −20) before the first answer, staying on the card: both requests carry width 190, so the card ends 190 wide, not 180 | the card ends at its size at the press plus the pointer's total travel, clamped at 100, however the answers are timed | medium, not executed | CardWidget.StaleResizeByLastStep | CardWidget.AnchoredResizeTracksPointer |

The corrected handlers (`AnchoredPress`, `AnchoredPatch`, `AnchoredResizePatch`) record the card's position and size at the press. Each move then sends that position or size plus the pointer's travel since the press, and never reads the re-rendered card. `DragTracksPointer`, `DragGesture` and `ResizeKeepsMinimum` model the handlers as written, under the prompt-answer schedule only (see "## Left out").

## Left out

- CanvasService.FindAll: returns a set. The row order the database returns is not modelled.
- CardService.FindAll: returns a set. The row order the database returns is not modelled.
- Timestamps: a canvas's `createdAt` and `updatedAt` come from the system clock and are omitted. A card's `createdAt` is a client-supplied column, kept as an opaque string.
- Coordinates and sizes are floating point in the source. Here they are whole pixels (`int`).
- Request bodies: the DTO classes carry validation decorators, but the application's bootstrap (`main.ts`) installs no validation pipe; only the test fixture does (`test/setup.ts`). So in the application as shipped, unvalidated bodies reach the services. The model's inputs are typed records: bodies with missing fields, extra fields or wrongly typed values are not modelled, nor are the 400 responses the test fixture's pipe gives for them.
- HTTP controllers only forward to the services. The ORM module, bootstrap, Swagger setup and the one-off migration script are plumbing.
- Error responses are modelled as their status and message (`Error.Status`, `Error.Message`). The JSON body framing them is not modelled.
- The database's foreign key: the card entity declares a many-to-one relation joined on `canvasId`, and the ORM's schema synchronisation creates a foreign-key constraint from it. Only the service code is modelled, so the store here has no such constraint.
- Lifecycle.UpdateMayOrphanCard: holds of the service code only. In the deployed database, the `save` of an orphaning update violates the foreign-key constraint and fails as an unhandled error (500), so the card is not re-pointed.
- A canvas update without a name still refreshes the canvas's `updatedAt` column. Timestamps are omitted, so here it changes nothing.
- Concurrency: the check-then-act sequences in canvas `remove` and card `create` are modelled as atomic.
- The frontend's network wrappers (`cardService.js`, `canvasService.js`) are replaced by reply parameters. The canvas wrappers that read, create and update resolve to the response body, so `LoadCanvases` receives the list itself. The card wrappers and the canvas delete wrapper resolve to the whole HTTP response.
- CanvasBoard.DoubleClick: the element the source appends is the whole HTTP response that `createCard` in `cardService.js` resolves to, not the created card, so the appended element has no `id`, `positionX` or other card field. The model appends the created card itself.
- CanvasBoard.DoubleClickAgainstService: states where the card is stored, not where it is drawn. The cards are drawn inside a container translated by the pan offset, and the stored position already includes the offset. So with a non-zero offset the card is drawn away from the pointer, by twice the pan offset. Layout is not modelled.
- CardWidget.DragTracksPointer: holds only when every update request succeeds and is answered before the next pointer move. `MovesInFlight` models moves that all outrun their answers. Interleavings between the two are not modelled.
- CardWidget.DragGesture: the same assumption as `DragTracksPointer`.
- Pointer containment: the card's handlers are bound on the card's own box, and leaving it ends the gesture like a release. The model does not track whether a move lands on the card as drawn, so the gesture lemmas take every listed move as handled. The Findings inputs keep the pointer on the card.
- CardWidget.ResizeKeepsMinimum: proved under the same prompt-answer assumption as `DragTracksPointer`. For moves that all outrun their answers, `StaleResizeByLastStep` gives the 100 minimum too.
- A failed update request leaves the card where it was. In the gesture lemmas every request succeeds.
- `loadCards`, the `selectedCanvas` effect that triggers it, the sidebar toggle, the connect button, the focus timer in `handleClick`, and all rendering and markdown are left out.
- CanvasBoard.UpdateCard: `updateCard` finds the existing card in the list captured at render time, but replaces it in the latest list. The model uses one list for both, so two updates inside one event are not modelled as racing.
- CardWidget.MouseMove: when both flags are up, both patches are computed from the same rendered card, as in the source. The board-side effect of delivering them inside one event is modelled as sequential merges.
- One component test pans with mouse button 1, but the component only accepts button 0; the model follows the component. One service unit test mocks delete-affected counts for canvas removal, but the service reads the canvas first; the model follows the service.
- The legacy `Card.jsx` component and the generated `firstentity` stub are not part of this model.

=== FILE: canvas_board.dfy ===
/** The board component's state transitions (frontend/src/components/Canvas/Canvas.jsx)
    with rendering stripped away: selecting the first canvas on load,
    panning with the left button, creating a card by double-click, and
    replacing or dropping cards in the local list.

    Network calls are not made here: each handler takes the server's reply
    as a parameter (`None` or `false` when the request failed), and a
    failed request leaves the list as it was, as the handlers' `catch`
    blocks do.
 */
module CanvasBoard {
  import opened Outcomes
  import opened Records
  import opened Geometry
  import Repository
  import CardService

  /** The component's state hooks, less the sidebar toggle. */
  datatype Board = Board(
    cards: seq<Card>,
    canvases: seq<Canvas>,
    selected: Option<nat>,
    isDragging: bool,
    startPos: Point,
    offset: Point,
    error: Option<string>)

  const LoadCanvasesError: string := "Error loading canvases"

  /** The only mouse button that starts a pan. */
  const LeftButton: int := 0

  const NewCardTitle: string := "New Card"
  const NewCardContent: string := "# New Card\n\nClick to edit"
  const NewCardWidth: int := 200
  const NewCardHeight: int := 150

  /** JavaScript truthiness of the selected canvas id: `null` and `0` are false. */
  predicate Truthy(selected: Option<nat>) {
    selected.Some? && selected.value != 0
  }

  /** Every id the store hands out is truthy, so any stored canvas can be
      the target of a double-click. */
  lemma StoredIdsAreTruthy(s: Repository.Store, k: nat)
    requires Repository.Valid(s) && k in s.canvases
    ensures Truthy(Some(k))
  {
  }

  // ---------------------------------------------------------------------
  // Loading canvases

  /** `loadCanvases`: on success store the list and select the first
      canvas when there is one (keeping the old selection otherwise); on
      failure only the error message is set. */
  function LoadCanvases(b: Board, reply: Option<seq<Canvas>>): (r: Board)
    ensures reply.None? ==> r == b.(error := Some(LoadCanvasesError))
    ensures reply.Some? ==> r.canvases == reply.value && r.cards == b.cards && r.error == b.error
    ensures reply.Some? && |reply.value| > 0 ==> r.selected == Some(reply.value[0].id)
    ensures reply.Some? && |reply.value| == 0 ==> r.selected == b.selected
    ensures r.isDragging == b.isDragging && r.startPos == b.startPos && r.offset == b.offset
  {
    match reply
    case None => b.(error := Some(LoadCanvasesError))
    case Some(cs) =>
      if |cs| > 0 then b.(canvases := cs, selected := Some(cs[0].id))
      else b.(canvases := cs)
  }

  /** Loading a list whose first canvas the store holds makes that canvas
      the target of the next double-click's create request. */
  lemma LoadedFirstCanvasReceivesNewCards(s: Repository.Store, b: Board, cs: seq<Canvas>,
                                          ev: DoubleClickEvent, now: string)
    requires Repository.Valid(s) && |cs| > 0 && cs[0].id in s.canvases
    ensures NewCardDraft(LoadCanvases(b, Some(cs)), ev, now).Some?
    ensures NewCardDraft(LoadCanvases(b, Some(cs)), ev, now).value.canvasId == cs[0].id
  {
    StoredIdsAreTruthy(s, cs[0].id);
  }

  // ---------------------------------------------------------------------
  // Panning

  /** `handleMouseDown`: only the left button starts a pan; it records the
      pointer relative to the current offset. */
  function MouseDown(b: Board, button: int, pointer: Point): (r: Board)
    ensures button != LeftButton ==> r == b
    ensures button == LeftButton ==> r.isDragging && r == b.(isDragging := true, startPos := r.startPos)
    ensures button == LeftButton ==>
      forall q :: MouseMove(r, q).offset == Add(b.offset, Sub(q, pointer))
  {
    if button != LeftButton then b
    else b.(isDragging := true, startPos := Sub(pointer, b.offset))
  }

  /** `handleMouseMove`: while panning, the offset follows the pointer;
      otherwise nothing changes. */
  function MouseMove(b: Board, pointer: Point): (r: Board)
    ensures !b.isDragging ==> r == b
    ensures b.isDragging ==> r == b.(offset := r.offset) && Add(r.offset, b.startPos) == pointer
  {
    if !b.isDragging then b
    else b.(offset := Sub(pointer, b.startPos))
  }

  /** `handleMouseUp` (also bound to mouse leave): the pan ends, the offset stays. */
  function MouseUp(b: Board): (r: Board)
    ensures !r.isDragging
    ensures r.offset == b.offset && r.cards == b.cards
    ensures r.(isDragging := b.isDragging) == b
  {
    b.(isDragging := false)
  }

  /** A series of pointer moves. */
  function MouseMoves(b: Board, ps: seq<Point>): Board
    decreases |ps|
  {
    if ps == [] then b else MouseMoves(MouseMove(b, ps[0]), ps[1..])
  }

  /** While a pan is in progress, only the last pointer position matters:
      the offset is that position less the recorded start. */
  lemma {:induction false} PanTracksLastPointer(b: Board, ps: seq<Point>)
    requires b.isDragging && |ps| > 0
    ensures MouseMoves(b, ps) == b.(offset := Sub(ps[|ps| - 1], b.startPos))
    decreases |ps|
  {
    if |ps| > 1 {
      PanTracksLastPointer(MouseMove(b, ps[0]), ps[1..]);
      assert ps[1..][|ps[1..]| - 1] == ps[|ps| - 1];
    }
  }

  /** A whole pan gesture: press the left button at `down`, move through
      `ps`; the canvas has moved by the pointer's total displacement and
      the cards are untouched. */
  lemma {:induction false} PanMovesByPointerDelta(b: Board, down: Point, ps: seq<Point>)
    requires |ps| > 0
    ensures
      var r := MouseMoves(MouseDown(b, LeftButton, down), ps);
      && r.offset == Add(b.offset, Sub(ps[|ps| - 1], down))
      && r.isDragging
      && r.cards == b.cards
  {
    PanTracksLastPointer(MouseDown(b, LeftButton, down), ps);
  }

  /** Without a pan in progress, pointer moves change nothing. */
  lemma {:induction false} MovesWithoutPanAreInert(b: Board, ps: seq<Point>)
    requires !b.isDragging
    ensures MouseMoves(b, ps) == b
    decreases |ps|
  {
    if ps != [] {
      MovesWithoutPanAreInert(MouseMove(b, ps[0]), ps[1..]);
    }
  }

  // ---------------------------------------------------------------------
  // Creating a card by double-click

  /** The double-click event's pointer and the canvas area's bounding box. */
  datatype DoubleClickEvent = DoubleClickEvent(client: Point, rectLeft: int, rectTop: int)

  /** The create request a double-click sends: only when a canvas is
      selected; at the pointer's canvas-plane position, with the default
      title, content and size, on the selected canvas. */
  function NewCardDraft(b: Board, ev: DoubleClickEvent, now: string): (r: Option<CardInput>)
    ensures r.Some? <==> Truthy(b.selected)
    ensures r.Some? ==>
      && r.value.positionX == ev.client.x - ev.rectLeft + b.offset.x
      && r.value.positionY == ev.client.y - ev.rectTop + b.offset.y
      && r.value.title == NewCardTitle && r.value.content == NewCardContent
      && r.value.width == NewCardWidth && r.value.height == NewCardHeight
      && r.value.canvasId == b.selected.value
      && r.value.createdAt == now
  {
    if !Truthy(b.selected) then None
    else
      var x := ev.client.x - ev.rectLeft + b.offset.x;
      var y := ev.client.y - ev.rectTop + b.offset.y;
      Some(CardInput(NewCardTitle, NewCardContent, x, y, NewCardWidth, NewCardHeight, now, b.selected.value))
  }

  /** `handleCanvasDoubleClick`: with a canvas selected and the create
      request answered, the created card is appended after the existing
      ones; in every other case the board is unchanged. */
  function DoubleClick(b: Board, ev: DoubleClickEvent, now: string, reply: Option<Card>): (r: Board)
    ensures !Truthy(b.selected) || reply.None? ==> r == b
    ensures Truthy(b.selected) && reply.Some? ==>
      && |r.cards| == |b.cards| + 1
      && r.cards[..|b.cards|] == b.cards
      && r.cards[|b.cards|] == reply.value
      && r == b.(cards := r.cards)
  {
    match NewCardDraft(b, ev, now)
    case None => b
    case Some(_) =>
      match reply
      case None => b
      case Some(created) => b.(cards := b.cards + [created])
  }

  /** Double-click against the card service: when the selected canvas
      exists the create succeeds and the new card, stored at the pointer
      less the canvas area's corner plus the pan offset and with the
      default size, is appended to the list; when it does not, the service
      refuses and the board is unchanged. */
  lemma DoubleClickAgainstService(s: Repository.Store, b: Board, ev: DoubleClickEvent, now: string)
    requires Truthy(b.selected)
    ensures
      var draft := NewCardDraft(b, ev, now).value;
      var created := CardService.Create(s, draft);
      var reply := if created.result.Ok? then Some(created.result.value) else None;
      var r := DoubleClick(b, ev, now, reply);
      && (b.selected.value in s.canvases ==>
            && created.result.Ok?
            && r.cards[|b.cards|].positionX == ev.client.x - ev.rectLeft + b.offset.x
            && r.cards[|b.cards|].positionY == ev.client.y - ev.rectTop + b.offset.y
            && r.cards[|b.cards|].width == NewCardWidth
            && r.cards[|b.cards|].height == NewCardHeight
            && r.cards[|b.cards|].canvasId == b.selected.value
            && r.cards[..|b.cards|] == b.cards)
      && (b.selected.value !in s.canvases ==> created.store == s && r == b)
  {
  }

  // ---------------------------------------------------------------------
  // Replacing and dropping cards in the local list

  /** The position of the first card with the given id, as `Array.find` scans. */
  function FindById(cards: seq<Card>, id: nat): (r: Option<nat>)
    ensures r.None? <==> forall i :: 0 <= i < |cards| ==> cards[i].id != id
    ensures r.Some? ==> r.value < |cards| && cards[r.value].id == id
    ensures r.Some? ==> forall j :: 0 <= j < r.value ==> cards[j].id != id
    decreases |cards|
  {
    if cards == [] then None
    else if cards[0].id == id then Some(0)
    else
      match FindById(cards[1..], id)
      case None => None
      case Some(i) => Some(i + 1)
  }

  /** The list with every card carrying the id swapped for the updated
      card, each other card left in its place. */
  function ReplaceById(cards: seq<Card>, id: nat, updated: Card): (r: seq<Card>)
    ensures |r| == |cards|
    ensures forall i :: 0 <= i < |cards| ==> r[i] == (if cards[i].id == id then updated else cards[i])
    decreases |cards|
  {
    if cards == [] then []
    else [if cards[0].id == id then updated else cards[0]] + ReplaceById(cards[1..], id, updated)
  }

  /** The list filtered down to the cards whose id differs, in their
      original order. */
  function Without(cards: seq<Card>, id: nat): (r: seq<Card>)
    ensures forall c :: c in r <==> c in cards && c.id != id
    ensures |r| <= |cards|
    decreases |cards|
  {
    if cards == [] then []
    else if cards[0].id == id then Without(cards[1..], id)
    else [cards[0]] + Without(cards[1..], id)
  }

  /** Filtering keeps order: it distributes over concatenation. */
  lemma {:induction false} WithoutConcat(a: seq<Card>, b: seq<Card>, id: nat)
    ensures Without(a + b, id) == Without(a, id) + Without(b, id)
    decreases |a|
  {
    if a == [] {
      assert a + b == b;
    } else {
      var ab := a + b;
      assert ab != [] && ab[0] == a[0] && ab[1..] == a[1..] + b;
      WithoutConcat(a[1..], b, id);
      if a[0].id == id {
        assert Without(ab, id) == Without(a[1..] + b, id);
        assert Without(a, id) == Without(a[1..], id);
      } else {
        assert Without(ab, id) == [a[0]] + Without(a[1..] + b, id);
        assert Without(a, id) == [a[0]] + Without(a[1..], id);
      }
    }
  }

  /** Filtering an id no card carries returns the list unchanged. */
  lemma {:induction false} WithoutAbsent(cards: seq<Card>, id: nat)
    ensures (forall i :: 0 <= i < |cards| ==> cards[i].id != id) ==> Without(cards, id) == cards
    decreases |cards|
  {
    if cards != [] {
      WithoutAbsent(cards[1..], id);
    }
  }

  /** `updateCard`: an unknown id, or a failed update request, leaves the
      board as it was; otherwise every card with that id becomes the first
      such card merged with the updates, and every other card, the length
      and the order stay. */
  function UpdateCard(b: Board, id: nat, updates: CardPatch, apiOk: bool): (r: Board)
    ensures FindById(b.cards, id).None? || !apiOk ==> r == b
    ensures r == b.(cards := r.cards)
    ensures |r.cards| == |b.cards|
    ensures forall i :: 0 <= i < |b.cards| && b.cards[i].id != id ==> r.cards[i] == b.cards[i]
    ensures forall i :: 0 <= i < |b.cards| ==> r.cards[i].id == b.cards[i].id
    ensures FindById(b.cards, id).Some? && apiOk ==>
      forall i :: 0 <= i < |b.cards| && b.cards[i].id == id ==>
        r.cards[i] == MergeCard(b.cards[FindById(b.cards, id).value], updates)
  {
    match FindById(b.cards, id)
    case None => b
    case Some(i) =>
      var updated := MergeCard(b.cards[i], updates);
      if apiOk then b.(cards := ReplaceById(b.cards, id, updated)) else b
  }

  /** `deleteCard`: after a successful delete request, exactly the cards
      with that id leave the list and the rest keep their order; after a
      failed one the board is unchanged. */
  function DeleteCard(b: Board, id: nat, apiOk: bool): (r: Board)
    ensures !apiOk ==> r == b
    ensures r == b.(cards := r.cards)
    ensures apiOk ==> r.cards == Without(b.cards, id)
    ensures apiOk ==> forall c :: c in r.cards <==> c in b.cards && c.id != id
    ensures apiOk && (forall i :: 0 <= i < |b.cards| ==> b.cards[i].id != id) ==> r == b
  {
    if apiOk then WithoutAbsent(b.cards, id); b.(cards := Without(b.cards, id)) else b
  }
}

=== FILE: canvas_service.dfy ===
/** The canvas service: list, get, create, update and remove canvases,
    with the delete guard that refuses to remove a canvas that still has
    cards (backend/canvas/src/firstentity/canvas.service.ts).
 */
module CanvasService {
  import opened Outcomes
  import opened Records
  import opened Repository

  /** A canvas as the service returns it: the row with its `cards` relation loaded. */
  datatype CanvasView = CanvasView(canvas: Canvas, cards: set<Card>)

  /** The stored canvas under key `k` with the cards whose foreign key is `k`. */
  function View(s: Store, k: nat): CanvasView
    requires k in s.canvases
  {
    CanvasView(s.canvases[k], CardsOf(s.cards, k))
  }

  function ViewsOf(s: Store, ks: set<nat>): set<CanvasView>
    requires ks <= s.canvases.Keys
  {
    set k | k in ks :: View(s, k)
  }

  /** Distinct keys give distinct views, so there are as many views as keys. */
  lemma {:induction false} ViewsOfSize(s: Store, ks: set<nat>)
    requires Valid(s)
    requires ks <= s.canvases.Keys
    ensures |ViewsOf(s, ks)| == |ks|
    decreases ks
  {
    if ks != {} {
      var k :| k in ks;
      var rest := ks - {k};
      ViewsOfSize(s, rest);
      assert ViewsOf(s, ks) == ViewsOf(s, rest) + {View(s, k)};
      forall j | j in rest
        ensures View(s, j) != View(s, k)
      {
        assert View(s, j).canvas.id == j;
      }
    }
  }

  /** `findAll`: every stored canvas, each with its cards, each exactly once. */
  function FindAll(s: Store): (r: set<CanvasView>)
    ensures forall k :: k in s.canvases ==> View(s, k) in r
    ensures forall v :: v in r ==> exists k :: k in s.canvases && v == View(s, k)
    ensures Valid(s) ==> |r| == |s.canvases|
  {
    var r := ViewsOf(s, s.canvases.Keys);
    if Valid(s) then ViewsOfSize(s, s.canvases.Keys); r else r
  }

  /** `findOne`: NotFound exactly when no canvas has the id; otherwise that
      canvas and exactly the cards that point at it. */
  function FindOne(s: Store, id: nat): (r: Result<CanvasView>)
    ensures r.Err? <==> id !in s.canvases
    ensures r.Err? ==> r.error == NotFound(CanvasEntity, id)
    ensures r.Ok? ==> r.value.canvas == s.canvases[id]
    ensures r.Ok? ==> forall c :: c in r.value.cards <==> c in s.cards.Values && c.canvasId == id
  {
    if id in s.canvases then
      var v := View(s, id);
      assert forall c :: c in v.cards <==> c in s.cards.Values && c.canvasId == id by {
        forall c
          ensures c in v.cards <==> c in s.cards.Values && c.canvasId == id
        {
          InCardsOf(s.cards, id, c);
        }
      }
      Ok(v)
    else
      Err(NotFound(CanvasEntity, id))
  }

  /** `create`: one new canvas under a fresh id with the requested name;
      nothing else changes and the new canvas has no cards. */
  function Create(s: Store, input: CanvasInput): (r: Step<Canvas>)
    ensures r.result.Ok?
    ensures r.result.value.id == s.nextCanvasId && r.result.value.name == input.name
    ensures r.store.canvases == s.canvases[r.result.value.id := r.result.value]
    ensures r.store.cards == s.cards && r.store.nextCardId == s.nextCardId
    ensures r.store.nextCanvasId > s.nextCanvasId
    ensures Valid(s) ==> Valid(r.store) && r.result.value.id !in s.canvases
    ensures RefIntact(s) ==> RefIntact(r.store)
    ensures Valid(s) && RefIntact(s) ==> !HasCards(r.store, r.result.value.id)
  {
    var id := s.nextCanvasId;
    var c := NewCanvas(id, input);
    Step(s.(canvases := s.canvases[id := c], nextCanvasId := id + 1), Ok(c))
  }

  /** `update`: the repository update touches the row only when it exists,
      then the canvas is re-read; an absent id is NotFound with the store
      unchanged, a present one changes only the patched name. */
  function Update(s: Store, id: nat, patch: CanvasPatch): (r: Step<CanvasView>)
    ensures id !in s.canvases ==> r.store == s && r.result == Err(NotFound(CanvasEntity, id))
    ensures id in s.canvases ==>
      && r.result.Ok?
      && r.store.canvases.Keys == s.canvases.Keys
      && r.result.value.canvas == r.store.canvases[id]
      && r.store.canvases[id].id == s.canvases[id].id
      && r.store.canvases[id].name == (if patch.name.Some? then patch.name.value else s.canvases[id].name)
      && (forall k :: k in s.canvases && k != id ==> r.store.canvases[k] == s.canvases[k])
      && r.store.cards == s.cards
      && r.result.value.cards == CardsOf(s.cards, id)
    ensures r.store.nextCanvasId == s.nextCanvasId && r.store.nextCardId == s.nextCardId
    ensures Valid(s) ==> Valid(r.store)
    ensures RefIntact(s) ==> RefIntact(r.store)
  {
    var s' := if id in s.canvases
      then s.(canvases := s.canvases[id := MergeCanvas(s.canvases[id], patch)])
      else s;
    Step(s', FindOne(s', id))
  }

  /** `remove`: NotFound for an absent id, the delete guard for a canvas
      with cards (both leave the store unchanged); otherwise exactly that
      canvas goes and the card table is untouched. */
  function Remove(s: Store, id: nat): (r: Step<()>)
    ensures id !in s.canvases ==> r == Step(s, Err(NotFound(CanvasEntity, id)))
    ensures id in s.canvases && HasCards(s, id) ==> r == Step(s, Err(CanvasHasCards))
    ensures r.result.Ok? <==> id in s.canvases && !HasCards(s, id)
    ensures r.result.Err? ==> r.result.error.Status() == (if id in s.canvases then 400 else 404)
    ensures id in s.canvases && HasCards(s, id) ==>
      r.result.error.Message() == "Cannot delete canvas with associated cards"
    ensures r.result.Ok? ==> r.store == s.(canvases := s.canvases - {id})
    ensures Valid(s) ==> Valid(r.store)
    ensures RefIntact(s) ==> RefIntact(r.store)
  {
    match FindOne(s, id)
    case Err(e) => Step(s, Err(e))
    case Ok(v) =>
      CardsOfNonEmpty(s, id);
      if |v.cards| > 0 then Step(s, Err(CanvasHasCards))
      else Step(s.(canvases := s.canvases - {id}), Ok(()))
  }
}

=== FILE: card_service.dfy ===
/** The card service: list, get, create, update and remove cards, with the
    creation-time check that the named canvas exists and merge-patch
    updates (backend/canvas/src/firstentity/card.service.ts).
 */
module CardService {
  import opened Outcomes
  import opened Records
  import opened Repository

  /** A card as the service returns it: the row with its `canvas` relation
      loaded, `None` when the foreign key names no canvas. */
  datatype CardView = CardView(card: Card, canvas: Option<Canvas>)

  /** The stored card under key `k` with the canvas its foreign key names. */
  function View(s: Store, k: nat): CardView
    requires k in s.cards
  {
    var c := s.cards[k];
    CardView(c, if c.canvasId in s.canvases then Some(s.canvases[c.canvasId]) else None)
  }

  function ViewsOf(s: Store, ks: set<nat>): set<CardView>
    requires ks <= s.cards.Keys
  {
    set k | k in ks :: View(s, k)
  }

  /** Distinct keys give distinct views, so there are as many views as keys. */
  lemma {:induction false} ViewsOfSize(s: Store, ks: set<nat>)
    requires Valid(s)
    requires ks <= s.cards.Keys
    ensures |ViewsOf(s, ks)| == |ks|
    decreases ks
  {
    if ks != {} {
      var k :| k in ks;
      var rest := ks - {k};
      ViewsOfSize(s, rest);
      assert ViewsOf(s, ks) == ViewsOf(s, rest) + {View(s, k)};
      forall j | j in rest
        ensures View(s, j) != View(s, k)
      {
        assert View(s, j).card.id == j;
      }
    }
  }

  /** `findAll`: every stored card, each with its canvas, each exactly once;
      no filtering by canvas. */
  function FindAll(s: Store): (r: set<CardView>)
    ensures forall k :: k in s.cards ==> View(s, k) in r
    ensures forall v :: v in r ==> exists k :: k in s.cards && v == View(s, k)
    ensures Valid(s) ==> |r| == |s.cards|
  {
    var r := ViewsOf(s, s.cards.Keys);
    if Valid(s) then ViewsOfSize(s, s.cards.Keys); r else r
  }

  /** `findOne`: NotFound exactly when no card has the id; otherwise that
      card, with its canvas whenever the foreign key resolves. */
  function FindOne(s: Store, id: nat): (r: Result<CardView>)
    ensures r.Err? <==> id !in s.cards
    ensures r.Err? ==> r.error == NotFound(CardEntity, id)
    ensures r.Ok? ==> r.value.card == s.cards[id]
    ensures r.Ok? ==> (r.value.canvas.Some? <==> s.cards[id].canvasId in s.canvases)
    ensures r.Ok? && r.value.canvas.Some? ==> r.value.canvas.value == s.canvases[s.cards[id].canvasId]
  {
    if id in s.cards then Ok(View(s, id)) else Err(NotFound(CardEntity, id))
  }

  /** `create`: refused with a client error, adding nothing, when the named
      canvas does not exist; otherwise one new card under a fresh id whose
      columns are exactly the request's, and nothing else changes. */
  function Create(s: Store, input: CardInput): (r: Step<Card>)
    ensures input.canvasId !in s.canvases ==> r == Step(s, Err(CanvasMissing(input.canvasId)))
    ensures r.result.Ok? <==> input.canvasId in s.canvases
    ensures r.result.Err? ==>
      && r.result.error.Status() == 400
      && r.result.error.Message() == "Canvas with ID " + Decimal(input.canvasId) + " does not exist"
    ensures r.result.Ok? ==>
      && r.result.value.id == s.nextCardId
      && ToInput(r.result.value) == input
      && r.store.cards == s.cards[r.result.value.id := r.result.value]
      && r.store.canvases == s.canvases
      && r.store.nextCanvasId == s.nextCanvasId
      && r.store.nextCardId > s.nextCardId
    ensures Valid(s) && r.result.Ok? ==> r.result.value.id !in s.cards
    ensures Valid(s) ==> Valid(r.store)
    ensures RefIntact(s) ==> RefIntact(r.store)
  {
    if input.canvasId !in s.canvases then
      Step(s, Err(CanvasMissing(input.canvasId)))
    else
      var id := s.nextCardId;
      var c := NewCard(id, input);
      Step(s.(cards := s.cards[id := c], nextCardId := id + 1), Ok(c))
  }

  /** `update`: preload the row merged with the patch; NotFound with the
      store unchanged when there is no row, otherwise the merged card is
      saved and returned. The patched `canvasId` is not checked. */
  function Update(s: Store, id: nat, patch: CardPatch): (r: Step<Card>)
    ensures id !in s.cards ==> r == Step(s, Err(NotFound(CardEntity, id)))
    ensures id in s.cards ==>
      && r.result.Ok?
      && r.result.value.id == s.cards[id].id
      && (forall f :: Get(r.result.value, f) ==
            (if Patched(patch, f).Some? then Patched(patch, f).value else Get(s.cards[id], f)))
      && r.store == s.(cards := s.cards[id := r.result.value])
    ensures Valid(s) ==> Valid(r.store)
    ensures RefIntact(s) && (patch.canvasId.None? || patch.canvasId.value in s.canvases) ==> RefIntact(r.store)
  {
    if id !in s.cards then
      Step(s, Err(NotFound(CardEntity, id)))
    else
      var merged := MergeCard(s.cards[id], patch);
      Step(s.(cards := s.cards[id := merged]), Ok(merged))
  }

  /** `remove`: delete by id; when no row was affected the result is
      NotFound and the store is unchanged, otherwise exactly that card goes
      and the canvas table is untouched. */
  function Remove(s: Store, id: nat): (r: Step<()>)
    ensures r.result.Err? <==> id !in s.cards
    ensures r.result.Err? ==> r == Step(s, Err(NotFound(CardEntity, id)))
    ensures r.result.Ok? ==> r.store == s.(cards := s.cards - {id})
    ensures Valid(s) ==> Valid(r.store)
    ensures RefIntact(s) ==> RefIntact(r.store)
  {
    var affected := if id in s.cards then 1 else 0;
    if affected == 0 then Step(s, Err(NotFound(CardEntity, id)))
    else Step(s.(cards := s.cards - {id}), Ok(()))
  }
}

=== FILE: card_widget.dfy ===
/** The single-card component's pointer and edit handlers
    (frontend/src/components/Card/SingleCard.jsx) with rendering stripped
    away: dragging moves the card by the pointer's displacement, resizing
    changes its size but never below 100 pixels, and leaving the text box
    sends the new content.

    A handler does not change the card itself: it sends patches to the
    board's `updateCard`, which replaces the card in the list only once the
    update request has been answered. Two schedules are modelled:

    - `Moves`: every request succeeds and is answered before the next
      pointer move, so the component is next rendered with the merged card
      (`Deliver`);
    - `MovesInFlight`: the moves outrun the answers, so every move reads
      the same card while the reference point has already advanced, and
      each answer writes that card merged with its own patch
      (`LandReplies`).
 */
module CardWidget {
  import opened Outcomes
  import opened Records
  import opened Geometry
  import CanvasBoard

  /** The component's own state hooks. */
  datatype Widget = Widget(isEditing: bool, isDragging: bool, isResizing: bool, startPos: Point)

  const Initial: Widget := Widget(false, false, false, Origin)

  /** The smallest width or height a resize sends. */
  const MinSize: int := 100

  /** Which element the press landed on: the card body or the resize handle. */
  datatype Action = Drag | Resize

  /** A handler's new state and the patches it sent, in order. */
  datatype Sent = Sent(widget: Widget, patches: seq<CardPatch>)

  /** The card as re-rendered after the board merged each sent patch in turn. */
  function Deliver(c: Card, ps: seq<CardPatch>): (r: Card)
    ensures r.id == c.id
    decreases |ps|
  {
    if ps == [] then c else Deliver(MergeCard(c, ps[0]), ps[1..])
  }

  /** `handleMouseDown`: the action's flag goes up (the other is left as
      it was) and the pointer becomes the reference point. */
  function MouseDown(w: Widget, action: Action, pointer: Point): (r: Widget)
    ensures r.startPos == pointer
    ensures r.isDragging == (w.isDragging || action == Drag)
    ensures r.isResizing == (w.isResizing || action == Resize)
    ensures r.isEditing == w.isEditing
  {
    var dragging := if action == Drag then true else w.isDragging;
    var resizing := if action == Resize then true else w.isResizing;
    w.(isDragging := dragging, isResizing := resizing, startPos := pointer)
  }

  /** The drag update: the card's position moved by the pointer delta. */
  function DragPatch(c: Card, delta: Point): CardPatch {
    EmptyPatch.(positionX := Some(c.positionX + delta.x), positionY := Some(c.positionY + delta.y))
  }

  /** The resize update: the card's size grown by the pointer delta, but
      never below the minimum. */
  function ResizePatch(c: Card, delta: Point): CardPatch {
    EmptyPatch.(width := Some(Max(MinSize, c.width + delta.x)),
                height := Some(Max(MinSize, c.height + delta.y)))
  }

  /** `handleMouseMove`: a drag sends the moved position, a resize the
      clamped size, both measured from the reference point, which then
      becomes the current pointer; with neither flag up nothing is sent and
      nothing changes. Moves only ever touch geometry, and a sent size is
      never below the minimum. */
  function MouseMove(w: Widget, c: Card, pointer: Point): (r: Sent)
    ensures !w.isDragging && !w.isResizing ==> r == Sent(w, [])
    ensures w.isDragging || w.isResizing ==> r.widget == w.(startPos := pointer)
    ensures |r.patches| == (if w.isDragging then 1 else 0) + (if w.isResizing then 1 else 0)
    ensures forall p :: p in r.patches ==>
      p.title.None? && p.content.None? && p.createdAt.None? && p.canvasId.None?
    ensures forall p :: p in r.patches && p.width.Some? ==> p.width.value >= MinSize
    ensures forall p :: p in r.patches && p.height.Some? ==> p.height.value >= MinSize
    ensures w.isDragging && !w.isResizing ==>
      Deliver(c, r.patches) == c.(positionX := c.positionX + pointer.x - w.startPos.x,
                                  positionY := c.positionY + pointer.y - w.startPos.y)
    ensures w.isResizing && !w.isDragging ==>
      Deliver(c, r.patches) == c.(width := Max(MinSize, c.width + pointer.x - w.startPos.x),
                                  height := Max(MinSize, c.height + pointer.y - w.startPos.y))
  {
    var delta := Sub(pointer, w.startPos);
    var dragged := if w.isDragging then [DragPatch(c, delta)] else [];
    var resized := if w.isResizing then [ResizePatch(c, delta)] else [];
    var w' := if w.isDragging || w.isResizing then w.(startPos := pointer) else w;
    Sent(w', dragged + resized)
  }

  /** `handleMouseUp` (also bound to mouse leave): both gestures end. */
  function MouseUp(w: Widget): (r: Widget)
    ensures !r.isDragging && !r.isResizing
    ensures r.isEditing == w.isEditing && r.startPos == w.startPos
  {
    w.(isDragging := false, isResizing := false)
  }

  /** `handleClick`: the text box opens. */
  function Click(w: Widget): (r: Widget)
    ensures r.isEditing
    ensures r.(isEditing := w.isEditing) == w
  {
    w.(isEditing := true)
  }

  /** `handleBlur`: the text box closes and exactly one update is sent,
      carrying the text and nothing else, so only the content changes. */
  function Blur(w: Widget, c: Card, text: string): (r: Sent)
    ensures !r.widget.isEditing && r.widget.(isEditing := w.isEditing) == w
    ensures |r.patches| == 1
    ensures forall f :: Patched(r.patches[0], f).Some? <==> f == Content
    ensures Deliver(c, r.patches) == c.(content := text)
  {
    var p := EmptyPatch.(content := Some(text));
    assert Deliver(c, [p]) == MergeCard(c, p);
    Sent(w.(isEditing := false), [p])
  }

  // ---------------------------------------------------------------------
  // Whole gestures

  /** The widget and the card it is rendered with. */
  datatype Session = Session(widget: Widget, card: Card)

  /** One pointer move, its patches answered and merged into the card
      before the next move. */
  function Move(st: Session, pointer: Point): Session {
    var m := MouseMove(st.widget, st.card, pointer);
    Session(m.widget, Deliver(st.card, m.patches))
  }

  /** A series of pointer moves. */
  function Moves(st: Session, ps: seq<Point>): Session
    decreases |ps|
  {
    if ps == [] then st else Moves(Move(st, ps[0]), ps[1..])
  }

  /** When every answer arrives before the next move, a drag in progress
      moves the card by the pointer's total displacement from the
      reference point, whatever the path; nothing else changes. */
  lemma {:induction false} DragTracksPointer(w: Widget, c: Card, ps: seq<Point>)
    requires w.isDragging && !w.isResizing && |ps| > 0
    ensures
      var last := ps[|ps| - 1];
      Moves(Session(w, c), ps) ==
        Session(w.(startPos := last),
                c.(positionX := c.positionX + last.x - w.startPos.x,
                   positionY := c.positionY + last.y - w.startPos.y))
    decreases |ps|
  {
    var next := Move(Session(w, c), ps[0]);
    if |ps| > 1 {
      DragTracksPointer(next.widget, next.card, ps[1..]);
      assert ps[1..][|ps[1..]| - 1] == ps[|ps| - 1];
    }
  }

  /** Press on the card body and move, every answer arriving before the
      next move: the card ends up displaced by exactly the pointer's travel
      since the press. */
  lemma {:induction false} DragGesture(c: Card, down: Point, ps: seq<Point>)
    requires |ps| > 0
    ensures
      var last := ps[|ps| - 1];
      var r := Moves(Session(MouseDown(Initial, Drag, down), c), ps);
      && r.card.positionX == c.positionX + last.x - down.x
      && r.card.positionY == c.positionY + last.y - down.y
      && r.card == c.(positionX := r.card.positionX, positionY := r.card.positionY)
  {
    DragTracksPointer(MouseDown(Initial, Drag, down), c, ps);
  }

  /** A resize in progress keeps the card at least the minimum size after
      every move, and changes nothing but width and height. */
  lemma {:induction false} ResizeKeepsMinimum(w: Widget, c: Card, ps: seq<Point>)
    requires w.isResizing && !w.isDragging && |ps| > 0
    ensures
      var r := Moves(Session(w, c), ps);
      && r.card.width >= MinSize && r.card.height >= MinSize
      && r.card == c.(width := r.card.width, height := r.card.height)
      && r.widget.isResizing && !r.widget.isDragging
    decreases |ps|
  {
    var next := Move(Session(w, c), ps[0]);
    if |ps| > 1 {
      ResizeKeepsMinimum(next.widget, next.card, ps[1..]);
    }
  }

  /** With neither gesture in progress, moves send nothing and change nothing. */
  lemma {:induction false} IdleMovesAreInert(st: Session, ps: seq<Point>)
    requires !st.widget.isDragging && !st.widget.isResizing
    ensures Moves(st, ps) == st
    decreases |ps|
  {
    if ps != [] {
      assert Move(st, ps[0]) == st;
      IdleMovesAreInert(st, ps[1..]);
    }
  }

  /** After the press is released, further moves are inert. */
  lemma {:induction false} ReleasedMovesAreInert(st: Session, ps: seq<Point>)
    ensures Moves(Session(MouseUp(st.widget), st.card), ps) == Session(MouseUp(st.widget), st.card)
  {
    IdleMovesAreInert(Session(MouseUp(st.widget), st.card), ps);
  }

  /** A drag move's patch sent through the board's `updateCard` lands on
      the card at its position in the list and leaves the others alone. */
  lemma DragMoveThroughBoard(b: CanvasBoard.Board, i: nat, w: Widget, pointer: Point)
    requires i < |b.cards| && CanvasBoard.FindById(b.cards, b.cards[i].id) == Some(i)
    requires w.isDragging && !w.isResizing
    ensures
      var m := MouseMove(w, b.cards[i], pointer);
      var r := CanvasBoard.UpdateCard(b, b.cards[i].id, m.patches[0], true);
      && r.cards[i] == Deliver(b.cards[i], m.patches)
      && (forall j :: 0 <= j < |b.cards| && b.cards[j].id != b.cards[i].id ==> r.cards[j] == b.cards[j])
  {
  }

  // ---------------------------------------------------------------------
  // Moves that outrun the update requests

  /** Pointer moves handled before any of their update requests has been
      answered. Each move re-renders the component with its new reference
      point, but the board has not replaced the card yet, so every patch is
      computed from the same card `c`. */
  function MovesInFlight(w: Widget, c: Card, ps: seq<Point>): Sent
    decreases |ps|
  {
    if ps == [] then Sent(w, [])
    else
      var m := MouseMove(w, c, ps[0]);
      var rest := MovesInFlight(m.widget, c, ps[1..]);
      Sent(rest.widget, m.patches + rest.patches)
  }

  /** The answers arriving in order, each one successful. `updateCard`
      builds each request's card from the list it captured when the move
      was handled, so every answer replaces the card with `rendered` merged
      with that request's patch, whatever the card had become meanwhile. */
  function LandReplies(current: Card, rendered: Card, ps: seq<CardPatch>): Card
    decreases |ps|
  {
    if ps == [] then current else LandReplies(MergeCard(rendered, ps[0]), rendered, ps[1..])
  }

  /** Only the last answer counts: it overwrites whatever the earlier ones wrote. */
  lemma {:induction false} LandRepliesLastWins(current: Card, rendered: Card, ps: seq<CardPatch>)
    requires |ps| > 0
    ensures LandReplies(current, rendered, ps) == MergeCard(rendered, ps[|ps| - 1])
    decreases |ps|
  {
    if |ps| > 1 {
      LandRepliesLastWins(MergeCard(rendered, ps[0]), rendered, ps[1..]);
      assert ps[1..][|ps[1..]| - 1] == ps[|ps| - 1];
    }
  }

  /** A drag or a resize whose moves outrun the answers sends one patch
      per move, each computed from the stale card and the pointer's step
      since the previous move. */
  lemma {:induction false} InFlightPatches(w: Widget, c: Card, ps: seq<Point>)
    requires w.isDragging != w.isResizing && |ps| > 0
    ensures
      var r := MovesInFlight(w, c, ps);
      var prev := if |ps| == 1 then w.startPos else ps[|ps| - 2];
      var step := Sub(ps[|ps| - 1], prev);
      && |r.patches| == |ps|
      && r.patches[|ps| - 1] == (if w.isDragging then DragPatch(c, step) else ResizePatch(c, step))
      && r.widget == w.(startPos := ps[|ps| - 1])
    decreases |ps|
  {
    var m := MouseMove(w, c, ps[0]);
    if |ps| > 1 {
      InFlightPatches(m.widget, c, ps[1..]);
      assert ps[1..][|ps[1..]| - 1] == ps[|ps| - 1];
      assert |ps[1..]| == 1 ==> ps[|ps| - 2] == ps[0];
      assert |ps[1..]| > 1 ==> ps[1..][|ps[1..]| - 2] == ps[|ps| - 2];
    }
  }

  /** As written: when two or more moves outrun the answers, the card ends
      up moved only by the pointer's last step, not by its travel since the
      press. */
  lemma {:induction false} StaleDragMovesByLastStep(w: Widget, c: Card, ps: seq<Point>)
    requires w.isDragging && !w.isResizing && |ps| >= 2
    ensures
      var last := ps[|ps| - 1];
      var prev := ps[|ps| - 2];
      LandReplies(c, c, MovesInFlight(w, c, ps).patches) ==
        c.(positionX := c.positionX + last.x - prev.x,
           positionY := c.positionY + last.y - prev.y)
  {
    InFlightPatches(w, c, ps);
    LandRepliesLastWins(c, c, MovesInFlight(w, c, ps).patches);
  }

  /** As written: when two or more resize moves outrun the answers, the
      card ends up grown only by the pointer's last step, clamped at the
      minimum, not by its travel since the press. The minimum still holds. */
  lemma {:induction false} StaleResizeByLastStep(w: Widget, c: Card, ps: seq<Point>)
    requires w.isResizing && !w.isDragging && |ps| >= 2
    ensures
      var last := ps[|ps| - 1];
      var prev := ps[|ps| - 2];
      var r := LandReplies(c, c, MovesInFlight(w, c, ps).patches);
      && r == c.(width := Max(MinSize, c.width + last.x - prev.x),
                 height := Max(MinSize, c.height + last.y - prev.y))
      && r.width >= MinSize && r.height >= MinSize
  {
    InFlightPatches(w, c, ps);
    LandRepliesLastWins(c, c, MovesInFlight(w, c, ps).patches);
  }

  /** The input that shows it: press at the origin and move right by
      `step` twice (say 10 and then 20). Answered promptly the card moves
      by twice the step; with both requests in flight it moves by one. */
  lemma StaleSecondMove(c: Card, step: int)
    ensures
      var w := MouseDown(Initial, Drag, Origin);
      var ps := [Point(step, 0), Point(2 * step, 0)];
      && Moves(Session(w, c), ps).card.positionX == c.positionX + 2 * step
      && LandReplies(c, c, MovesInFlight(w, c, ps).patches).positionX == c.positionX + step
  {
    var w := MouseDown(Initial, Drag, Origin);
    var ps := [Point(step, 0), Point(2 * step, 0)];
    DragTracksPointer(w, c, ps);
    StaleDragMovesByLastStep(w, c, ps);
  }

  /** The input that shows it for resizing: press the handle at the origin
      of a card with room to shrink, and move up and left by a non-negative
      `step` twice, so the pointer stays on the card as drawn. Answered
      promptly the card shrinks by twice the step; with both requests in
      flight it shrinks by one. */
  lemma StaleSecondShrink(c: Card, step: int)
    requires step >= 0 && c.width >= MinSize + 2 * step && c.height >= MinSize + 2 * step
    ensures
      var w := MouseDown(Initial, Resize, Origin);
      var ps := [Point(-step, -step), Point(-2 * step, -2 * step)];
      var prompt := Moves(Session(w, c), ps).card;
      var inFlight := LandReplies(c, c, MovesInFlight(w, c, ps).patches);
      && prompt.width == c.width - 2 * step && prompt.height == c.height - 2 * step
      && inFlight.width == c.width - step && inFlight.height == c.height - step
  {
    var w := MouseDown(Initial, Resize, Origin);
    var ps := [Point(-step, -step), Point(-2 * step, -2 * step)];
    var st1 := Move(Session(w, c), ps[0]);
    assert st1.card.width == c.width - step && st1.card.height == c.height - step;
    var st2 := Move(st1, ps[1]);
    assert st2.card.width == c.width - 2 * step && st2.card.height == c.height - 2 * step;
    assert ps[1..] == [ps[1]] && ps[1..][1..] == [];
    assert Moves(st1, ps[1..]) == Moves(st2, ps[1..][1..]);
    assert Moves(Session(w, c), ps) == Moves(st1, ps[1..]);
    StaleResizeByLastStep(w, c, ps);
  }

  // ---------------------------------------------------------------------
  // Drag and resize handlers that do not depend on the answers' timing

  /** What the corrected handlers record at the press: the pointer, and
      the card's position and size at that moment. */
  datatype Anchor = Anchor(press: Point, origin: Point, size: Point)

  function AnchoredPress(c: Card, pointer: Point): (r: Anchor)
    ensures r.press == pointer
    ensures r.origin == Point(c.positionX, c.positionY) && r.size == Point(c.width, c.height)
  {
    Anchor(pointer, Point(c.positionX, c.positionY), Point(c.width, c.height))
  }

  /** The corrected drag update: the recorded position plus the pointer's
      travel since the press, an absolute position that does not read the
      rendered card. */
  function AnchoredPatch(a: Anchor, pointer: Point): (r: CardPatch)
    ensures forall f :: Patched(r, f).Some? <==> f == PositionX || f == PositionY
    ensures forall c :: MergeCard(c, r) == c.(positionX := a.origin.x + pointer.x - a.press.x,
                                               positionY := a.origin.y + pointer.y - a.press.y)
  {
    EmptyPatch.(positionX := Some(a.origin.x + pointer.x - a.press.x),
                positionY := Some(a.origin.y + pointer.y - a.press.y))
  }

  /** The patches the corrected handler sends for a series of moves. */
  function AnchoredMoves(a: Anchor, ps: seq<Point>): (r: seq<CardPatch>)
    ensures |r| == |ps|
    ensures forall i :: 0 <= i < |ps| ==> r[i] == AnchoredPatch(a, ps[i])
  {
    seq(|ps|, i requires 0 <= i < |ps| => AnchoredPatch(a, ps[i]))
  }

  /** Patches that all set the same columns: merged one after another,
      only the last one's values remain. */
  lemma {:induction false} DeliverSameColumnsLastWins(c: Card, qs: seq<CardPatch>, cols: set<Field>)
    requires |qs| > 0
    requires forall i, f :: 0 <= i < |qs| ==> (Patched(qs[i], f).Some? <==> f in cols)
    ensures Deliver(c, qs) == MergeCard(c, qs[|qs| - 1])
    decreases |qs|
  {
    if |qs| > 1 {
      var c1 := MergeCard(c, qs[0]);
      var last := qs[|qs| - 1];
      DeliverSameColumnsLastWins(c1, qs[1..], cols);
      assert qs[1..][|qs[1..]| - 1] == last;
      forall f
        ensures Get(MergeCard(c1, last), f) == Get(MergeCard(c, last), f)
      {
        assert Patched(last, f).Some? <==> f in cols;
        assert Patched(qs[0], f).Some? <==> f in cols;
      }
      CardsEqualByFields(MergeCard(c1, last), MergeCard(c, last));
    } else {
      assert qs[1..] == [];
    }
  }

  /** Corrected: with the anchored drag handler the card ends up displaced by
      exactly the pointer's travel since the press, both when every answer
      arrives before the next move and when all the moves outrun them. */
  lemma {:induction false} AnchoredDragTracksPointer(c: Card, down: Point, ps: seq<Point>)
    requires |ps| > 0
    ensures
      var a := AnchoredPress(c, down);
      var last := ps[|ps| - 1];
      var target := c.(positionX := c.positionX + last.x - down.x,
                       positionY := c.positionY + last.y - down.y);
      && Deliver(c, AnchoredMoves(a, ps)) == target
      && LandReplies(c, c, AnchoredMoves(a, ps)) == target
  {
    var a := AnchoredPress(c, down);
    DeliverSameColumnsLastWins(c, AnchoredMoves(a, ps), {PositionX, PositionY});
    LandRepliesLastWins(c, c, AnchoredMoves(a, ps));
  }

  /** The corrected resize update: the size at the press grown by the
      pointer's travel since the press, clamped at the minimum, an absolute
      size that does not read the rendered card. */
  function AnchoredResizePatch(a: Anchor, pointer: Point): (r: CardPatch)
    ensures forall f :: Patched(r, f).Some? <==> f == Width || f == Height
    ensures forall c :: MergeCard(c, r) == c.(width := Max(MinSize, a.size.x + pointer.x - a.press.x),
                                               height := Max(MinSize, a.size.y + pointer.y - a.press.y))
  {
    EmptyPatch.(width := Some(Max(MinSize, a.size.x + pointer.x - a.press.x)),
                height := Some(Max(MinSize, a.size.y + pointer.y - a.press.y)))
  }

  /** The patches the corrected resize handler sends for a series of moves. */
  function AnchoredResizeMoves(a: Anchor, ps: seq<Point>): (r: seq<CardPatch>)
    ensures |r| == |ps|
    ensures forall i :: 0 <= i < |ps| ==> r[i] == AnchoredResizePatch(a, ps[i])
  {
    seq(|ps|, i requires 0 <= i < |ps| => AnchoredResizePatch(a, ps[i]))
  }

  /** Corrected: with the anchored resize handler the card ends up grown by
      exactly the pointer's travel since the press, clamped at the minimum,
      both when every answer arrives before the next move and when all the
      moves outrun them. */
  lemma {:induction false} AnchoredResizeTracksPointer(c: Card, down: Point, ps: seq<Point>)
    requires |ps| > 0
    ensures
      var a := AnchoredPress(c, down);
      var last := ps[|ps| - 1];
      var target := c.(width := Max(MinSize, c.width + last.x - down.x),
                       height := Max(MinSize, c.height + last.y - down.y));
      && Deliver(c, AnchoredResizeMoves(a, ps)) == target
      && LandReplies(c, c, AnchoredResizeMoves(a, ps)) == target
      && target.width >= MinSize && target.height >= MinSize
  {
    var a := AnchoredPress(c, down);
    DeliverSameColumnsLastWins(c, AnchoredResizeMoves(a, ps), {Width, Height});
    LandRepliesLastWins(c, c, AnchoredResizeMoves(a, ps));
  }
}

=== FILE: geometry.dfy ===
/** Whole-pixel points and the vector arithmetic the pointer handlers use. */
module Geometry {

  datatype Point = Point(x: int, y: int)

  const Origin: Point := Point(0, 0)

  function Add(p: Point, q: Point): Point {
    Point(p.x + q.x, p.y + q.y)
  }

  /** The displacement from `q` to `p`. */
  function Sub(p: Point, q: Point): Point {
    Point(p.x - q.x, p.y - q.y)
  }

  /** The larger of two values: `Math.max` on whole pixels. */
  function Max(a: int, b: int): (m: int)
    ensures m >= a && m >= b
    ensures m == a || m == b
  {
    if a >= b then a else b
  }
}

=== FILE: lifecycle.dfy ===
/** Sequences of service calls: the ten HTTP operations as requests, the
    store they leave behind, and the properties that only show over
    several calls (id freshness, referential integrity, the delete guard
    lifting once a canvas's cards are gone).
 */
module Lifecycle {
  import opened Outcomes
  import opened Records
  import opened Repository
  import CanvasService
  import CardService

  /** One call into either service, as the HTTP layer issues it. */
  datatype Request =
    | FindAllCanvases
    | FindCanvas(id: nat)
    | CreateCanvas(canvasInput: CanvasInput)
    | UpdateCanvas(id: nat, canvasPatch: CanvasPatch)
    | RemoveCanvas(id: nat)
    | FindAllCards
    | FindCard(id: nat)
    | CreateCard(cardInput: CardInput)
    | UpdateCard(id: nat, cardPatch: CardPatch)
    | RemoveCard(id: nat)

  /** The store after one request; reads leave it as it was. */
  function Apply(s: Store, q: Request): (r: Store)
    ensures Valid(s) ==> Valid(r)
    ensures r.nextCanvasId >= s.nextCanvasId && r.nextCardId >= s.nextCardId
    ensures forall k :: k < s.nextCanvasId && k !in s.canvases ==> k !in r.canvases
    ensures forall k :: k < s.nextCardId && k !in s.cards ==> k !in r.cards
  {
    match q
    case FindAllCanvases => s
    case FindCanvas(_) => s
    case CreateCanvas(input) => CanvasService.Create(s, input).store
    case UpdateCanvas(id, patch) => CanvasService.Update(s, id, patch).store
    case RemoveCanvas(id) => CanvasService.Remove(s, id).store
    case FindAllCards => s
    case FindCard(_) => s
    case CreateCard(input) => CardService.Create(s, input).store
    case UpdateCard(id, patch) => CardService.Update(s, id, patch).store
    case RemoveCard(id) => CardService.Remove(s, id).store
  }

  /** The store after a sequence of requests, in order. */
  function Run(s: Store, qs: seq<Request>): Store
    decreases |qs|
  {
    if qs == [] then s else Run(Apply(s, qs[0]), qs[1..])
  }

  /** Any sequence of calls keeps the store well formed. */
  lemma {:induction false} RunPreservesValid(s: Store, qs: seq<Request>)
    requires Valid(s)
    ensures Valid(Run(s, qs))
    decreases |qs|
  {
    if qs != [] {
      RunPreservesValid(Apply(s, qs[0]), qs[1..]);
    }
  }

  /** Ids are never reused: an id already handed out and since deleted
      never comes back, whatever calls follow. */
  lemma {:induction false} IdsNeverReused(s: Store, qs: seq<Request>, canvasId: nat, cardId: nat)
    requires canvasId < s.nextCanvasId && canvasId !in s.canvases
    requires cardId < s.nextCardId && cardId !in s.cards
    ensures canvasId !in Run(s, qs).canvases
    ensures cardId !in Run(s, qs).cards
    decreases |qs|
  {
    if qs != [] {
      IdsNeverReused(Apply(s, qs[0]), qs[1..], canvasId, cardId);
    }
  }

  /** A call that points no card at a missing canvas: a card update that
      re-points its card names a canvas the store holds at that moment. */
  predicate OwnerExists(s: Store, q: Request) {
    q.UpdateCard? && q.cardPatch.canvasId.Some? ==> q.cardPatch.canvasId.value in s.canvases
  }

  /** Every call of the run points no card at a canvas missing when the call is made. */
  predicate RunOwnersExist(s: Store, qs: seq<Request>)
    decreases |qs|
  {
    qs == [] || (OwnerExists(s, qs[0]) && RunOwnersExist(Apply(s, qs[0]), qs[1..]))
  }

  /** One call keeps referential integrity unless it re-points a card at a
      missing canvas: card creation checks the canvas, canvas removal is
      guarded, and nothing else touches a foreign key. */
  lemma ApplyKeepsRef(s: Store, q: Request)
    requires RefIntact(s) && OwnerExists(s, q)
    ensures RefIntact(Apply(s, q))
  {
  }

  /** Referential integrity holds across every sequence of calls in which
      each card update names an existing canvas or none: the creation-time
      check and the delete guard together keep every card on an existing
      canvas. */
  lemma {:induction false} RunPreservesRefIntact(s: Store, qs: seq<Request>)
    requires RefIntact(s)
    requires RunOwnersExist(s, qs)
    ensures RefIntact(Run(s, qs))
    decreases |qs|
  {
    if qs != [] {
      ApplyKeepsRef(s, qs[0]);
      RunPreservesRefIntact(Apply(s, qs[0]), qs[1..]);
    }
  }

  /** Card update does not look the patched canvas up: re-pointing a card
      at a canvas that does not exist succeeds and breaks integrity. */
  lemma UpdateMayOrphanCard()
    ensures
      var s := Store(map[1 := Canvas(1, "Board")],
                     map[1 := Card(1, "T", "C", 0, 0, 200, 150, "t0", 1)], 2, 2);
      var r := CardService.Update(s, 1, EmptyPatch.(canvasId := Some(7)));
      && Valid(s) && RefIntact(s)
      && r.result.Ok?
      && !RefIntact(r.store)
  {
    var s := Store(map[1 := Canvas(1, "Board")],
                   map[1 := Card(1, "T", "C", 0, 0, 200, 150, "t0", 1)], 2, 2);
    var r := CardService.Update(s, 1, EmptyPatch.(canvasId := Some(7)));
    assert Get(r.result.value, CanvasId) == Number(7);
    assert r.store.cards[1].canvasId == 7 && 7 !in r.store.canvases;
  }

  /** Removing each card in turn. */
  function RemoveCardRequests(ks: seq<nat>): (qs: seq<Request>)
    ensures |qs| == |ks|
    ensures forall i :: 0 <= i < |ks| ==> qs[i] == RemoveCard(ks[i])
  {
    seq(|ks|, i requires 0 <= i < |ks| => RemoveCard(ks[i]))
  }

  /** A run of card removals deletes exactly the named rows that exist and
      touches nothing else. */
  lemma {:induction false} RemoveCardsEffect(s: Store, ks: seq<nat>)
    ensures Run(s, RemoveCardRequests(ks)) == s.(cards := s.cards - (set k | k in ks))
    decreases |ks|
  {
    var qs := RemoveCardRequests(ks);
    if ks == [] {
      assert (set k | k in ks) == {};
      assert s.cards - {} == s.cards;
    } else {
      var s' := Apply(s, qs[0]);
      assert s' == s.(cards := s.cards - {ks[0]});
      assert qs[1..] == RemoveCardRequests(ks[1..]);
      RemoveCardsEffect(s', ks[1..]);
      assert (set k | k in ks) == {ks[0]} + (set k | k in ks[1..]);
      assert s.cards - {ks[0]} - (set k | k in ks[1..]) == s.cards - (set k | k in ks);
    }
  }

  /** The delete guard lifts once the canvas's cards are gone: after
      removing every card that points at it, removing the canvas succeeds
      and a later lookup reports NotFound. */
  lemma ClearCardsThenRemoveCanvas(s: Store, canvasId: nat, ks: seq<nat>)
    requires canvasId in s.canvases
    requires forall k :: k in s.cards && s.cards[k].canvasId == canvasId ==> k in ks
    ensures
      var cleared := Run(s, RemoveCardRequests(ks));
      var removed := CanvasService.Remove(cleared, canvasId);
      && removed.result == Ok(())
      && removed.store.cards == cleared.cards
      && CanvasService.FindOne(removed.store, canvasId) == Err(NotFound(CanvasEntity, canvasId))
  {
    var cleared := Run(s, RemoveCardRequests(ks));
    RemoveCardsEffect(s, ks);
    assert !HasCards(cleared, canvasId);
  }

  /** The guard itself: while one card points at a canvas, removing the
      canvas fails and leaves both tables as they were. */
  lemma GuardKeepsCanvasAndCards(s: Store, canvasId: nat, cardId: nat)
    requires canvasId in s.canvases
    requires cardId in s.cards && s.cards[cardId].canvasId == canvasId
    ensures CanvasService.Remove(s, canvasId) == Step(s, Err(CanvasHasCards))
    ensures CanvasService.FindOne(s, canvasId).Ok?
    ensures CardService.FindOne(s, cardId).Ok?
  {
    assert HasCards(s, canvasId);
  }

  /** Creating a canvas and reading it back gives the requested name and no cards. */
  lemma CanvasCreateThenFind(s: Store, input: CanvasInput)
    requires Valid(s) && RefIntact(s)
    ensures
      var created := CanvasService.Create(s, input);
      var found := CanvasService.FindOne(created.store, created.result.value.id);
      && found.Ok?
      && found.value.canvas == created.result.value
      && found.value.canvas.name == input.name
      && found.value.cards == {}
  {
  }

  /** Creating a card on an existing canvas and reading it back gives
      exactly the request's columns, attached to that canvas. */
  lemma CardCreateThenFind(s: Store, input: CardInput)
    requires input.canvasId in s.canvases
    ensures
      var created := CardService.Create(s, input);
      var found := CardService.FindOne(created.store, created.result.value.id);
      && found.Ok?
      && ToInput(found.value.card) == input
      && found.value.canvas == Some(s.canvases[input.canvasId])
  {
  }
}

=== FILE: outcomes.dfy ===
/** Results and errors shared by the two backend services.

    Every service operation either succeeds with a value or fails with
    exactly one error kind; the HTTP layer maps `NotFound` to 404 and the
    two referential-integrity failures to 400.
 */
module Outcomes {

  /** The conventional Some/None datatype, used for absent fields and replies. */
  datatype Option<+T> = None | Some(value: T)

  /** Which table an id failed to resolve in. */
  datatype Entity = CanvasEntity | CardEntity

  /** The error kinds the services raise. */
  datatype Error =
    | /** "<Entity> with ID <id> not found" (404) */
      NotFound(entity: Entity, id: nat)
    | /** Canvas delete blocked by its cards (400, fixed message below) */
      CanvasHasCards
    | /** Card create naming no canvas: "Canvas with ID <id> does not exist" (400) */
      CanvasMissing(canvasId: nat)
  {
    /** The HTTP status the exception class carries. */
    function Status(): nat {
      if NotFound? then 404 else 400
    }

    /** The message the exception carries, ids rendered in decimal. */
    function Message(): string {
      match this
      case NotFound(CanvasEntity, id) => "Canvas with ID " + Decimal(id) + " not found"
      case NotFound(CardEntity, id) => "Card with ID " + Decimal(id) + " not found"
      case CanvasHasCards => CanvasHasCardsMessage
      case CanvasMissing(id) => "Canvas with ID " + Decimal(id) + " does not exist"
    }
  }

  /** The message the delete guard reports. */
  const CanvasHasCardsMessage: string := "Cannot delete canvas with associated cards"

  /** The decimal digits of `n`, most significant first, as a template
      literal renders a number. */
  function Decimal(n: nat): (r: string)
    ensures |r| > 0
    ensures forall i :: 0 <= i < |r| ==> '0' <= r[i] <= '9'
    decreases n
  {
    var d := ['0' + (n % 10) as char];
    if n < 10 then d else Decimal(n / 10) + d
  }

  /** A service call's outcome. */
  datatype Result<+T> = Ok(value: T) | Err(error: Error)
}

=== FILE: records.dfy ===
/** The two persisted record shapes, the inputs that create them and the
    partial patches that update them.

    Floating-point coordinates and sizes are whole pixels here (`int`);
    a card's `createdAt` is an opaque string supplied by the client.
 */
module Records {
  import opened Outcomes

  /** A named board; its cards are derived from the card table. */
  datatype Canvas = Canvas(id: nat, name: string)

  /** The body of a canvas create request. */
  datatype CanvasInput = CanvasInput(name: string)

  /** The body of a canvas update request: every field optional. */
  datatype CanvasPatch = CanvasPatch(name: Option<string>)

  /** A positioned, sized note that belongs to one canvas through `canvasId`. */
  datatype Card = Card(
    id: nat,
    title: string,
    content: string,
    positionX: int,
    positionY: int,
    width: int,
    height: int,
    createdAt: string,
    canvasId: nat)

  /** The body of a card create request: a card without its id. */
  datatype CardInput = CardInput(
    title: string,
    content: string,
    positionX: int,
    positionY: int,
    width: int,
    height: int,
    createdAt: string,
    canvasId: nat)

  /** The body of a card update request: any subset of the non-id fields. */
  datatype CardPatch = CardPatch(
    title: Option<string>,
    content: Option<string>,
    positionX: Option<int>,
    positionY: Option<int>,
    width: Option<int>,
    height: Option<int>,
    createdAt: Option<string>,
    canvasId: Option<nat>)

  const EmptyPatch: CardPatch := CardPatch(None, None, None, None, None, None, None, None)

  /** The canvas a create request persists under the id the store assigns. */
  function NewCanvas(id: nat, input: CanvasInput): Canvas {
    Canvas(id, input.name)
  }

  /** Canvas update: a supplied name replaces the stored one, nothing else moves. */
  function MergeCanvas(c: Canvas, p: CanvasPatch): (r: Canvas)
    ensures r.id == c.id
    ensures p.name.None? ==> r == c
    ensures p.name.Some? ==> r.name == p.name.value
  {
    match p.name
    case None => c
    case Some(n) => c.(name := n)
  }

  // ---------------------------------------------------------------------
  // A field-by-field view of cards, inputs and patches, so that merge-patch
  // can be stated once for every field instead of eight times.

  /** The non-id columns of a card. */
  datatype Field = Title | Content | PositionX | PositionY | Width | Height | CreatedAt | CanvasId

  /** A column value: text or a number. */
  datatype Value = Text(text: string) | Number(n: int)

  /** A card's value in one column. */
  function Get(c: Card, f: Field): Value {
    match f
    case Title => Text(c.title)
    case Content => Text(c.content)
    case PositionX => Number(c.positionX)
    case PositionY => Number(c.positionY)
    case Width => Number(c.width)
    case Height => Number(c.height)
    case CreatedAt => Text(c.createdAt)
    case CanvasId => Number(c.canvasId)
  }

  /** An input's value in one column. */
  function InputGet(i: CardInput, f: Field): Value {
    match f
    case Title => Text(i.title)
    case Content => Text(i.content)
    case PositionX => Number(i.positionX)
    case PositionY => Number(i.positionY)
    case Width => Number(i.width)
    case Height => Number(i.height)
    case CreatedAt => Text(i.createdAt)
    case CanvasId => Number(i.canvasId)
  }

  /** A patch's value in one column, `None` when the patch leaves it alone. */
  function Patched(p: CardPatch, f: Field): Option<Value> {
    match f
    case Title => if p.title.Some? then Some(Text(p.title.value)) else None
    case Content => if p.content.Some? then Some(Text(p.content.value)) else None
    case PositionX => if p.positionX.Some? then Some(Number(p.positionX.value)) else None
    case PositionY => if p.positionY.Some? then Some(Number(p.positionY.value)) else None
    case Width => if p.width.Some? then Some(Number(p.width.value)) else None
    case Height => if p.height.Some? then Some(Number(p.height.value)) else None
    case CreatedAt => if p.createdAt.Some? then Some(Text(p.createdAt.value)) else None
    case CanvasId => if p.canvasId.Some? then Some(Number(p.canvasId.value)) else None
  }

  /** Two cards agreeing on the id and on every column are the same card. */
  lemma CardsEqualByFields(a: Card, b: Card)
    requires a.id == b.id
    requires forall f :: Get(a, f) == Get(b, f)
    ensures a == b
  {
    assert Get(a, Title) == Get(b, Title);
    assert Get(a, Content) == Get(b, Content);
    assert Get(a, PositionX) == Get(b, PositionX);
    assert Get(a, PositionY) == Get(b, PositionY);
    assert Get(a, Width) == Get(b, Width);
    assert Get(a, Height) == Get(b, Height);
    assert Get(a, CreatedAt) == Get(b, CreatedAt);
    assert Get(a, CanvasId) == Get(b, CanvasId);
  }

  /** The card a create request persists under the id the store assigns:
      every column holds what the request supplied. */
  function NewCard(id: nat, input: CardInput): (c: Card)
    ensures c.id == id
    ensures forall f :: Get(c, f) == InputGet(input, f)
    ensures ToInput(c) == input
  {
    Card(id, input.title, input.content, input.positionX, input.positionY,
         input.width, input.height, input.createdAt, input.canvasId)
  }

  /** The create request that would reproduce a card, less its id. */
  function ToInput(c: Card): CardInput {
    CardInput(c.title, c.content, c.positionX, c.positionY,
              c.width, c.height, c.createdAt, c.canvasId)
  }

  /** Merge-patch: the fields the patch supplies overwrite, the others and
      the id keep their values. */
  function MergeCard(c: Card, p: CardPatch): (r: Card)
    ensures r.id == c.id
    ensures forall f :: Get(r, f) == (if Patched(p, f).Some? then Patched(p, f).value else Get(c, f))
  {
    Card(c.id,
         if p.title.Some? then p.title.value else c.title,
         if p.content.Some? then p.content.value else c.content,
         if p.positionX.Some? then p.positionX.value else c.positionX,
         if p.positionY.Some? then p.positionY.value else c.positionY,
         if p.width.Some? then p.width.value else c.width,
         if p.height.Some? then p.height.value else c.height,
         if p.createdAt.Some? then p.createdAt.value else c.createdAt,
         if p.canvasId.Some? then p.canvasId.value else c.canvasId)
  }

  /** Two patches applied one after the other, the later one winning. */
  function ComposePatch(p: CardPatch, q: CardPatch): (r: CardPatch)
    ensures forall f :: Patched(r, f) == (if Patched(q, f).Some? then Patched(q, f) else Patched(p, f))
  {
    CardPatch(
      if q.title.Some? then q.title else p.title,
      if q.content.Some? then q.content else p.content,
      if q.positionX.Some? then q.positionX else p.positionX,
      if q.positionY.Some? then q.positionY else p.positionY,
      if q.width.Some? then q.width else p.width,
      if q.height.Some? then q.height else p.height,
      if q.createdAt.Some? then q.createdAt else p.createdAt,
      if q.canvasId.Some? then q.canvasId else p.canvasId)
  }

  /** An empty patch changes nothing. */
  lemma MergeEmptyPatch(c: Card)
    ensures MergeCard(c, EmptyPatch) == c
  {
  }

  /** Sending the same patch twice has the effect of sending it once. */
  lemma MergeIdempotent(c: Card, p: CardPatch)
    ensures MergeCard(MergeCard(c, p), p) == MergeCard(c, p)
  {
  }

  /** Two successive merges equal one merge of the composed patch. */
  lemma MergeCompose(c: Card, p: CardPatch, q: CardPatch)
    ensures MergeCard(MergeCard(c, p), q) == MergeCard(c, ComposePatch(p, q))
  {
  }
}

=== FILE: repository.dfy ===
/** The persistent state both services share: a canvas table and a card
    table keyed by id, each with its own id sequence, and the derived
    canvas-to-cards relation.
 */
module Repository {
  import opened Outcomes
  import opened Records

  /** Both tables and the next id each table's sequence will hand out. */
  datatype Store = Store(
    canvases: map<nat, Canvas>,
    cards: map<nat, Card>,
    nextCanvasId: nat,
    nextCardId: nat)

  /** A service call's new store together with its result. */
  datatype Step<+T> = Step(store: Store, result: Result<T>)

  /** Every row is stored under its own id, ids are positive, and every id
      in use is below its table's sequence, so a fresh id is never in use. */
  predicate Valid(s: Store) {
    && 0 < s.nextCanvasId
    && 0 < s.nextCardId
    && (forall k :: k in s.canvases ==> s.canvases[k].id == k && 0 < k < s.nextCanvasId)
    && (forall k :: k in s.cards ==> s.cards[k].id == k && 0 < k < s.nextCardId)
  }

  /** Referential integrity: every card names a canvas that exists. */
  predicate RefIntact(s: Store) {
    forall k :: k in s.cards ==> s.cards[k].canvasId in s.canvases
  }

  /** Both tables empty, both sequences at 1. */
  function Empty(): (s: Store)
    ensures Valid(s) && RefIntact(s)
    ensures s.canvases == map[] && s.cards == map[]
  {
    Store(map[], map[], 1, 1)
  }

  /** The cards whose foreign key names `canvasId`: the `cards` relation. */
  function CardsOf(cards: map<nat, Card>, canvasId: nat): set<Card> {
    set k | k in cards && cards[k].canvasId == canvasId :: cards[k]
  }

  /** Some stored card points at `canvasId`. */
  predicate HasCards(s: Store, canvasId: nat) {
    exists k :: k in s.cards && s.cards[k].canvasId == canvasId
  }

  /** The derived relation is non-empty exactly when some card points at the canvas. */
  lemma CardsOfNonEmpty(s: Store, canvasId: nat)
    ensures CardsOf(s.cards, canvasId) != {} <==> HasCards(s, canvasId)
  {
    if HasCards(s, canvasId) {
      var k :| k in s.cards && s.cards[k].canvasId == canvasId;
      assert s.cards[k] in CardsOf(s.cards, canvasId);
    }
  }

  /** Membership in the derived relation, spelled out. */
  lemma InCardsOf(cards: map<nat, Card>, canvasId: nat, c: Card)
    ensures c in CardsOf(cards, canvasId) <==> c in cards.Values && c.canvasId == canvasId
  {
  }
}
